=== FILE: README.md ===
# Mistral AI Ruby client: request-decision logic in Dafny

This project models the request engine of the `mistral-ai` Ruby gem,
`Mistral::Controllers::Client` (controllers/client.rb), and its error classes
(components/errors.rb). HTTP (Faraday), the event-stream tokenizer and JSON
parsing are not modelled. The model keeps only the decisions the client makes
on their inputs and outputs:

- **Construction** (`ClientConfig`). The base address is normalised. The rule
  "no API key on the public endpoint" is enforced. The
  `options.connection.request` hash is filtered to the allow-listed timeouts.
- **Dispatch** (`ClientRequest`). The streaming flag is resolved: an explicit
  override wins, otherwise the client default applies, and `chat_completions`
  forces it off unless `payload[:stream] == true`. A callback given without
  streaming is refused before any request is built. The model then builds the
  HTTP request (URL, verb, headers, body, transport options). It returns the
  decoded body in buffered mode and the kept events in streaming mode. A
  `Faraday::ServerError` is rewrapped as `RequestError`.
- **Best-effort JSON decode** (`JsonDecode`). This is `safe_parse_json`. A Ruby
  String and a JSON string are one value here, so text that is not decoded is
  `JString(raw)`. `JSON.parse` is a parameter `parse: string -> Option<Json>`,
  where `None` stands for `JSON::ParserError`.
- **Streaming** (`Streaming`). The `on_data` handler is modelled as a left fold
  over the chunks the transport delivers. Each chunk carries the tuples the
  tokenizer yields for it. The result is proved equal to a reference
  definition: the kept events are the non-`[DONE]` messages of the chunks
  processed before the first chunk whose status check raises. The callback is
  modelled as the trace `calls` of the invocations it received.
- **Errors** (`Errors`). The class hierarchy and the values raised.

Inputs the model cannot compute are parameters of the operations:

- `parse` stands for `JSON.parse`.
- `check` stands for Faraday's `RaiseError#on_complete` applied to a chunk's
  environment.
- `Delivery` stands for what the transport delivers: the streamed chunks, the
  buffered body, and the exception it raises at the end, if any.

The model follows the code in these places:

- Only `Faraday::ServerError` (and its subclasses) is rescued and rewrapped.
  Every other transport exception, `Faraday::ClientError` for 4xx statuses
  included, propagates unchanged (`ClientRequest.Rescue`).
- A chunk is checked only when its environment reports a status other than
  200. Whether that check raises is Faraday's decision (`check`), so a chunk
  with status 201 or 3xx can pass.
- Ruby's `/$` also matches a slash right before a line feed. Address
  normalisation models that exactly. The "a single trailing slash is kept"
  and idempotence statements are proved for addresses without line feeds.

## Model

| member | source | states |
|---|---|---|
| `ClientConfig.NormalizeAddress` | controllers/client.rb:20-24 | The address always ends in `/`. A nil or whitespace-only address becomes `https://api.mistral.ai/`. Otherwise, for a text without line feeds, an address ending in `/` is kept unchanged and any other gets one `/` appended. |
| `ClientConfig.NormalizeIdempotent` | controllers/client.rb:20-24 | Normalising a normalised, line-feed-free address changes nothing. |
| `ClientConfig.FirstSlashAtLineEnd` | controllers/client.rb:23 | Finds the leftmost slash that `/$` matches: one at the end of the text or before a line feed. Nothing earlier matches, and `None` means nothing matches at all. |
| `ClientConfig.RemoveSlashAtLineEnd` | controllers/client.rb:23 | `sub(%r{/$}, '')` changes the text exactly when some slash matches `/$`. Then exactly the leftmost matching slash is removed: the text before and after it is kept, one character shorter. |
| `ClientConfig.RemoveSlashWithoutNewlines` | controllers/client.rb:23 | On text without line feeds, `sub(%r{/$}, '')` removes exactly a final slash and nothing else. |
| `ClientConfig.RemovedSlashWasFinal` | controllers/client.rb:23 | If the substitution yields a line-feed-free text without a trailing slash, the input was that text or that text plus one final `/`. |
| `ClientConfig.FilterRequestOptions` | controllers/client.rb:30-38 | The kept keys are a subset of {timeout, open_timeout, read_timeout, write_timeout} and of the input's keys. Every allowed key present keeps its value. A non-Hash value, nil included, gives the empty map. |
| `ClientConfig.FilterRequestOptionsIdempotent` | controllers/client.rb:32-35 | Filtering is idempotent. A Hash with only allowed keys passes through whole. |
| `ClientConfig.New` | controllers/client.rb:16-39 | Construction fails with `MissingAPIKeyError` and its message iff there is no key and the normalised address is the public root. Otherwise the client holds the key, the default flag, the normalised address and the filtered options. |
| `ClientConfig.MissingKeyExactlyForDefaultAddress` | controllers/client.rb:20-28 | Without a key, construction fails exactly for a nil or blank address, `https://api.mistral.ai` or `https://api.mistral.ai/`. Every other address succeeds, line feeds included. |
| `ClientConfig.KeyAlwaysConstructs` | controllers/client.rb:26-28 | With a key, every configuration constructs. |
| `Errors.Superclass` | components/errors.rb:5-14 | The modelled chain stops at `StandardError`. `MistralError` inherits from `StandardError`, and the three other classes from `MistralError`, one level down. |
| `Errors.IsA` | components/errors.rb:5-14 | `is_a?` by walking the chain: every class is a `StandardError`, every class except `StandardError` is a `MistralError`, and otherwise a class is only itself. |
| `Errors.NewError` | components/errors.rb:5-12 | `MistralError.new(message = nil)` and its subclasses keep the given message unchanged. A `RequestError` built this way has nil request and payload. |
| `Errors.NewRequestError` | components/errors.rb:14-22 | `RequestError.new` stores message, request and payload unchanged. All three default to nil. |
| `Errors.ErrorsAreMistralErrors` | components/errors.rb:5-14 | Every error the client raises `is_a?` `MistralError` and `StandardError`. |
| `Errors.MistralErrorIsStrictlyBelowStandardError` | components/errors.rb:5 | `MistralError` inherits from `StandardError`, not the reverse. |
| `JsonDecode.SafeParseJson` | controllers/client.rb:116-120 | The result is the input text unchanged, or the parse of a text opening with `{` or `[`. Text that does not open that way, and text that fails to parse, come back unchanged. |
| `JsonDecode.UnbracketedTextBypassesParser` | controllers/client.rb:117 | Text not opening with `{`/`[` never reaches the parser: any two parsers agree on it. |
| `JsonDecode.DoneMarkerPassesThrough` | controllers/client.rb:116-120 | With a parser that rejects `[DONE]`, `[DONE]` decodes to itself. |
| `Streaming.FeedTuples` | controllers/client.rb:86-98 | The `parser.feed` block only appends: earlier results stay, at most one event per tuple is added, and none is a sentinel. Each added event carries this chunk's raw data. With a callback, the calls gain the same events, and without one they are unchanged. `FeedTuplesKeeps` states exactly which events are added. |
| `Streaming.OnData` | controllers/client.rb:80-105 | A chunk whose status check raises ends the exchange with that exception and adds nothing. Otherwise the abort state is unchanged, and results and calls only grow. `OnDataAppendsKeptEvents` states what is appended. |
| `Streaming.OnDataAppendsKeptEvents` | controllers/client.rb:80-98 | A chunk that passes the status check appends exactly its kept events (its non-sentinel messages, decoded, in order) to the results, and to the calls when there is a callback. |
| `Streaming.Drive` | controllers/client.rb:67-107 | Results and calls only grow. An exchange already aborted is left alone. An abort always carries the exception of one of the delivered chunks. `DriveMatchesReference` states the full result. |
| `Streaming.FirstAbort` | controllers/client.rb:80-84 | Finds the first chunk whose environment reports a non-200 status that the status check raises for. No earlier chunk raises, and `None` means no chunk raises. |
| `Streaming.FeedTuplesKeeps` | controllers/client.rb:86-98 | Feeding one chunk's tuples appends exactly their kept events, in order, to the results. The callback trace gets the same events when a callback exists and is unchanged otherwise. |
| `Streaming.DriveMatchesReference` | controllers/client.rb:80-98 | The fold's results are the kept events of the chunks before the first aborting one. The callback saw the same sequence, or nothing without a callback. The exchange aborts iff some chunk's check raises, with that exception. |
| `Streaming.KeptExactly` | controllers/client.rb:86-98 | An event is kept iff its message's decoded data is not `"[DONE]"`. Each kept event carries that decoding, its tuple and its chunk. There are never more kept events than messages. |
| `Streaming.SentinelContributesNothing` | controllers/client.rb:89 | A sentinel message between two runs of messages contributes no event and leaves the others in order. |
| `Streaming.DoneMessagesAreDropped` | controllers/client.rb:87-89 | A message whose data is `[DONE]` is dropped when the parser rejects that text. |
| `ClientRequest.ResolveStreaming` | controllers/client.rb:55 | A non-nil override decides streaming. A nil override falls back to the client default, where nil counts as off. |
| `ClientRequest.ChatOverride` | controllers/client.rb:42 | The chat override is forced to `false` unless `payload[:stream]` is exactly `true`. Otherwise the caller's override passes through. |
| `ClientRequest.ChatStreamsOnlyWhenRequested` | controllers/client.rb:41-43 | Chat streams iff the payload requests it and the override, or failing that the default, enables it. |
| `ClientRequest.BuildRequest` | controllers/client.rb:65-75 | The URL is the address followed by the path. The verb is POST iff the method name is `"POST"`. `Content-Type: application/json` is always set. `Authorization: Bearer <key>` is present iff a key exists. The body is present iff the payload is, and the client's options are carried. |
| `ClientRequest.ConstructedClientsBuildWellFormedRequests` | controllers/client.rb:56-67 | A constructed client's requests carry only allow-listed options and a URL of the slash-terminated address plus the path. |
| `ClientRequest.Rescue` | controllers/client.rb:112-113 | A `Faraday::ServerError` becomes a `RequestError` with its message, itself as `request`, and the submitted payload. Every other exception propagates unchanged. |
| `ClientRequest.Request` | controllers/client.rb:54-114 | Nothing is sent iff a callback is given while streaming resolves off, and then the call raises `BlockWithoutServerSentEventsError` with no callback. Buffered mode returns the decoded body. Streaming mode returns the kept events of all chunks and invokes the callback once per kept event, in order. A chunk abort or a transport exception is rescued per `Rescue` and returns no partial list. |
| `ClientRequest.ChatCompletions` | controllers/client.rb:41-44 | Without `stream: true`, a callback always raises. A request is sent unless a callback is given and the call does not stream. A sent chat request is a POST to `v1/chat/completions` carrying the payload, streaming iff requested and enabled. A buffered call returns the decoded body, or a `RequestError` with the payload on a server error. A streamed call with no raising chunk and no exception returns the decoded non-sentinel events of all chunks. |
| `ClientRequest.Embeddings` | controllers/client.rb:46-48 | A callback always raises, whatever the override. Otherwise the call is a buffered POST to `v1/embeddings` with the payload as body. It returns the decoded body. A `Faraday::ServerError` becomes a `RequestError` carrying the exception and the payload, and any other exception propagates unchanged. |
| `ClientRequest.Models` | controllers/client.rb:50-52 | A callback always raises. Otherwise the call is a buffered GET of `v1/models` without a body. A server error becomes a `RequestError` with a nil payload, and any other exception propagates unchanged. |
| `ClientRequest.GuardLeavesDefaultAlone` | controllers/client.rb:58-61 | Refusing a callback does not affect the client: the same client then serves a streaming call. |
| `ClientRequest.StreamedRepliesAreKeptEvents` | controllers/client.rb:86-111 | A streamed reply has at most as many events as messages and contains no sentinel. The i-th callback invocation received the i-th returned event. |
| `Scenarios.NoKeyNoAddressFails` | spec/tasks/run-client.rb:7-19 | A client built without key or address raises `MissingAPIKeyError`. |
| `Scenarios.NoKeyCustomAddressSucceeds` | controllers/client.rb:20-28 | `http://localhost:8080` needs no key and becomes `http://localhost:8080/`. |
| `Scenarios.BufferedExamples` | controllers/client.rb:109 | A body that parses is returned decoded, and `not-json` is returned as the same text. |
| `Scenarios.ModelsEndToEnd` | controllers/client.rb:50-75 | With key `k`, `models()` GETs `https://api.mistral.ai/v1/models` with `Bearer k` and returns the decoded list. |
| `Scenarios.StreamExampleKeeps` | controllers/client.rb:86-98 | Messages `{"choices":[]}` then `[DONE]` keep exactly one event. |
| `Scenarios.StreamExample` | controllers/client.rb:86-111 | The same stream through `chat_completions` returns the one `{"choices":[]}` event and makes one callback invocation with it. |
| `Scenarios.FailingStreamRaises` | controllers/client.rb:80-84 | A streamed response with status 500, whose chunks all carry that status, raises `RequestError` carrying the payload at the first chunk. No event reaches the callback and no list is returned. |
| `Scenarios.ChatWithoutStreamRefusesCallback` | controllers/client.rb:41-43 | `stream: false` with a streaming default and override still refuses a callback. |

## Left out

- HTTP transport: the Faraday connection, the `raise_error` middleware and the
  `on_data` plumbing (controllers/client.rb:67-69, 80-84) belong to Faraday.
  Which statuses raise which exception class is Faraday's decision. The model
  takes the chunks, the body, the final exception and the per-chunk status
  check as inputs. Faraday passes one environment with every chunk of a
  response; the model lets each chunk carry its own, which only makes the
  streaming lemmas more general.
- Event-stream tokenizer (`EventStreamParser::Parser#feed`, controllers/client.rb:78, 86):
  this is the event-stream interpretation of section 9.2 of the WHATWG HTML
  Living Standard. Its output per chunk is an input of the model, and message
  reassembly across chunks is its own.
- JSON parsing and serialisation: `JSON.parse` is the parameter `parse`.
  `payload.to_json` is represented by carrying the payload itself as the body.
- Streaming.FeedTuples: does not model the finish-reason scan
  (controllers/client.rb:100-102), whose result is unused. In Ruby that scan
  raises `NoMethodError` or `TypeError` for many kept events: a String, an
  Array, a Hash without `'choices'`, or `{"choices":[null]}`, among others.
  It runs after the callback and the append. That exception is not a
  `Faraday::ServerError`, so it reaches the caller unchanged, and any later
  chunk is never read. For such a stream the model returns the events, or the
  rewrapped error of a later chunk, where Ruby raises. The streamed examples
  in `Scenarios` therefore use the event `{"choices":[]}`, on which the scan
  finds nothing and raises nothing.
- ClientRequest.Request: computes the decoded data of a message once. The
  source calls `safe_parse_json(data)` twice, which is the same result for a
  deterministic parser. Exceptions raised by the caller's callback are not
  modelled.
- The callback itself is a flag plus the trace of its invocations. What it does
  with an event is the caller's code.
- Option values: `options.server_sent_events` and the override are
  `Option<bool>`, where `Some(true)` stands for any truthy Ruby value.
- API key: the key and the address are modelled as strings, i.e. after `to_s`,
  and `config[:credentials]` is assumed present.
- ClientConfig.New: does not model the `TypeError` that `config.dig` raises
  (controllers/client.rb:18, 30) when a value along the path is present but not
  a Hash, such as `options: { connection: 5 }`. `RequestOptions.NotHash`
  stands for non-Hash values at the end of the path, nil included, and gives the
  empty map.
- ClientRequest.ChatCompletions: takes a Hash payload and so does not model
  `chat_completions(nil)`, which raises `NoMethodError` at
  controllers/client.rb:42 (`nil[:stream]`).
- Hash keys distinguish Symbols from Strings, as Ruby does: a String key
  `"timeout"` or `"stream"` is not recognised.
- static/gem.rb (metadata) and ports/dsl/mistral-ai.rb (a facade forwarding
  `Mistral.new` to the client) hold no logic.

=== FILE: client.dfy ===
/** `Mistral::Controllers::Client`'s request logic: streaming-flag resolution, the
    callback guard, request assembly, buffered and streamed replies, and the
    rewrapping of transport exceptions. */
module ClientRequest {
  import opened Wrappers
  import opened Values
  import opened Transport
  import opened Errors
  import opened ClientConfig
  import opened JsonDecode
  import opened Streaming

  const ChatCompletionsPath: string := "v1/chat/completions"
  const EmbeddingsPath: string := "v1/embeddings"
  const ModelsPath: string := "v1/models"

  const BlockWithoutServerSentEventsMessage: string :=
    "You are trying to use a block without Server Sent Events (SSE) enabled."

  datatype Method = Get | Post

  /** The HTTP request handed to the transport. `body` is the payload that is
      serialised with `to_json`; `streaming` says whether an `on_data` handler is set. */
  datatype HttpRequest = HttpRequest(
    verb: Method,
    url: string,
    headers: map<string, string>,
    body: Option<Payload>,
    options: map<Key, Json>,
    streaming: bool)

  /** What a call returns: one decoded body, or the decoded events of a stream. */
  datatype Reply = Buffered(value: Json) | Streamed(events: seq<Json>)

  /** What a call raises: one of the client's own errors, or a transport exception
      the client lets through. */
  datatype Raised = OwnError(error: Error) | ForeignError(fault: Fault)

  /** A call's observable effects: its reply or exception, the request given to the
      transport (none when the call fails before building one), and the callback
      invocations made, in order. */
  datatype Outcome = Outcome(result: Result<Reply, Raised>, sent: Option<HttpRequest>, calls: seq<StreamEvent>)

  // ---------------------------------------------------------------------------
  // Streaming flags

  /** Ruby truthiness of a flag: only `nil` and `false` are falsy. */
  predicate Truthy(flag: Option<bool>)
  {
    flag == Some(true)
  }

  /** `server_sent_events.nil? ? @server_sent_events : server_sent_events`, read as a
      condition: an explicit override wins; without one the client default decides,
      a nil default counting as off. */
  function ResolveStreaming(override: Option<bool>, default: Option<bool>): (enabled: bool)
    ensures override.Some? ==> enabled == override.value
    ensures override.None? ==> (enabled <==> default == Some(true))
  {
    Truthy(if override.None? then default else override)
  }

  /** `payload[:stream] == true`: the Symbol key `:stream` bound to exactly `true`. */
  predicate StreamRequested(payload: Payload)
  {
    Symbol("stream") in payload && payload[Symbol("stream")] == JBool(true)
  }

  /** The override `chat_completions` passes on: forced to `false` unless the payload
      asks for a stream, the caller's override otherwise. */
  function ChatOverride(payload: Payload, override: Option<bool>): (r: Option<bool>)
    ensures !StreamRequested(payload) ==> r == Some(false)
    ensures StreamRequested(payload) ==> r == override
  {
    if !StreamRequested(payload) then Some(false) else override
  }

  /** Chat streams only when its payload asks for it, and then follows the override,
      falling back to the client default. */
  lemma ChatStreamsOnlyWhenRequested(payload: Payload, override: Option<bool>, default: Option<bool>)
    ensures ResolveStreaming(ChatOverride(payload, override), default) <==>
      StreamRequested(payload) && ResolveStreaming(override, default)
  {
  }

  // ---------------------------------------------------------------------------
  // Request assembly

  /** The request built for a call: URL = address followed by path; POST exactly when
      the method name is `"POST"`, GET otherwise; a JSON content type always; a
      bearer authorisation exactly when a key is configured; a body exactly when
      there is a payload; the client's filtered transport options. */
  function BuildRequest(client: Client, path: string, payload: Option<Payload>, requestMethod: string, streaming: bool): (req: HttpRequest)
    ensures req.url == client.address + path
    ensures req.verb == Post <==> requestMethod == "POST"
    ensures req.headers.Keys <= {"Content-Type", "Authorization"}
    ensures "Content-Type" in req.headers && req.headers["Content-Type"] == "application/json"
    ensures "Authorization" in req.headers <==> client.apiKey.Some?
    ensures client.apiKey.Some? ==> req.headers["Authorization"] == "Bearer " + client.apiKey.value
    ensures req.body.Some? <==> payload.Some?
    ensures req.body == payload
    ensures req.options == client.requestOptions
    ensures req.streaming == streaming
  {
    var contentType := map["Content-Type" := "application/json"];
    var headers := match client.apiKey
      case None => contentType
      case Some(key) => contentType["Authorization" := "Bearer " + key];
    HttpRequest(if requestMethod == "POST" then Post else Get, client.address + path, headers, payload,
                client.requestOptions, streaming)
  }

  /** A request from a constructed client carries only allow-listed transport options
      and a URL made of the slash-terminated base address and the path. */
  lemma ConstructedClientsBuildWellFormedRequests(config: Config, path: string, payload: Option<Payload>,
                                                  requestMethod: string, streaming: bool)
    requires New(config).Success?
    ensures var req := BuildRequest(New(config).value, path, payload, requestMethod, streaming);
      && req.options.Keys <= AllowedRequestOptions
      && req.url == NormalizeAddress(config.address) + path
      && req.url[|NormalizeAddress(config.address)| - 1] == '/'
  {
  }

  // ---------------------------------------------------------------------------
  // Dispatch

  /** `rescue Faraday::ServerError => e`: a server error becomes a `RequestError`
      carrying its message, the exception itself and the submitted payload; any other
      transport exception propagates unchanged. */
  function Rescue(f: Fault, payload: Option<Payload>): (r: Raised)
    ensures f.isServerError ==> r.OwnError? && r.error == NewRequestError(Some(f.message), Some(f), payload)
    ensures !f.isServerError ==> r == ForeignError(f)
  {
    if f.isServerError then OwnError(NewRequestError(Some(f.message), Some(f), payload)) else ForeignError(f)
  }

  /** `Client#request(path, payload, server_sent_events:, request_method:, &callback)`,
      with JSON parsing, Faraday's status check and the transport's answer given. */
  function Request(client: Client, path: string, payload: Option<Payload>, override: Option<bool>,
                   requestMethod: string, callback: bool,
                   parse: JsonParser, check: StatusCheck, delivery: Delivery): (o: Outcome)
    // the callback guard: fails before anything is sent, and only then
    ensures o.sent.None? <==> callback && !ResolveStreaming(override, client.serverSentEvents)
    ensures o.sent.None? ==>
      o.result == Failure(OwnError(BlockWithoutServerSentEvents(Some(BlockWithoutServerSentEventsMessage)))) && o.calls == []
    ensures o.sent.Some? ==>
      o.sent.value == BuildRequest(client, path, payload, requestMethod, ResolveStreaming(override, client.serverSentEvents))
    // buffered mode: the decoded body, no callback ever
    ensures o.sent.Some? && !o.sent.value.streaming ==> o.calls == []
    ensures o.sent.Some? && !o.sent.value.streaming && delivery.fault.None? ==>
      o.result == Success(Buffered(SafeParseJson(parse, delivery.body)))
    // streaming mode: the kept events, the callback once per kept event in the same order
    ensures o.sent.Some? && o.sent.value.streaming ==>
      o.calls == if callback then Kept(parse, Messages(Processed(check, delivery.chunks))) else []
    ensures o.sent.Some? && o.sent.value.streaming && AbortFault(check, delivery.chunks).None? && delivery.fault.None? ==>
      && o.result == Success(Streamed(Events(Kept(parse, Messages(delivery.chunks)))))
      && (callback ==> |o.calls| == |o.result.value.events|)
    // failures: a stream aborted by a chunk, or the transport raising
    ensures o.sent.Some? && o.sent.value.streaming && AbortFault(check, delivery.chunks).Some? ==>
      o.result == Failure(Rescue(AbortFault(check, delivery.chunks).value, payload))
    ensures o.sent.Some? && (o.sent.value.streaming ==> AbortFault(check, delivery.chunks).None?) && delivery.fault.Some? ==>
      o.result == Failure(Rescue(delivery.fault.value, payload))
  {
    var enabled := ResolveStreaming(override, client.serverSentEvents);
    if callback && !enabled then
      Outcome(Failure(OwnError(NewError(BlockWithoutServerSentEventsError, Some(BlockWithoutServerSentEventsMessage)))), None, [])
    else
      var req := BuildRequest(client, path, payload, requestMethod, enabled);
      if !enabled then
        match delivery.fault
        case Some(f) => Outcome(Failure(Rescue(f, payload)), Some(req), [])
        case None => Outcome(Success(Buffered(SafeParseJson(parse, delivery.body))), Some(req), [])
      else
        var st := Drive(parse, check, callback, Start, delivery.chunks);
        DriveMatchesReference(parse, check, callback, delivery.chunks);
        match (st.aborted, delivery.fault)
        case (Some(f), _) => Outcome(Failure(Rescue(f, payload)), Some(req), st.calls)
        case (None, Some(f)) => Outcome(Failure(Rescue(f, payload)), Some(req), st.calls)
        case (None, None) => Outcome(Success(Streamed(Events(st.results))), Some(req), st.calls)
  }

  // ---------------------------------------------------------------------------
  // Public operations

  /** `chat_completions(payload, server_sent_events:, &callback)`: a POST to the chat
      path carrying the payload, streaming only when the payload asks for it. */
  function ChatCompletions(client: Client, payload: Payload, override: Option<bool>, callback: bool,
                           parse: JsonParser, check: StatusCheck, delivery: Delivery): (o: Outcome)
    ensures !StreamRequested(payload) && callback ==>
      o.result == Failure(OwnError(BlockWithoutServerSentEvents(Some(BlockWithoutServerSentEventsMessage)))) && o.sent.None?
    ensures o.sent.Some? ==>
      && o.sent.value.url == client.address + ChatCompletionsPath
      && o.sent.value.verb == Post
      && o.sent.value.body == Some(payload)
      && (o.sent.value.streaming <==> StreamRequested(payload) && ResolveStreaming(override, client.serverSentEvents))
    ensures o.sent.None? <==> callback && !(StreamRequested(payload) && ResolveStreaming(override, client.serverSentEvents))
    ensures o.sent.Some? && !o.sent.value.streaming && delivery.fault.None? ==>
      o.result == Success(Buffered(SafeParseJson(parse, delivery.body)))
    ensures o.sent.Some? && !o.sent.value.streaming && delivery.fault.Some? && delivery.fault.value.isServerError ==>
      o.result == Failure(OwnError(NewRequestError(Some(delivery.fault.value.message), delivery.fault, Some(payload))))
    ensures o.sent.Some? && o.sent.value.streaming && AbortFault(check, delivery.chunks).None? && delivery.fault.None? ==>
      o.result == Success(Streamed(Events(Kept(parse, Messages(delivery.chunks)))))
  {
    ChatStreamsOnlyWhenRequested(payload, override, client.serverSentEvents);
    Request(client, ChatCompletionsPath, Some(payload), ChatOverride(payload, override), "POST", callback, parse, check, delivery)
  }

  /** `embeddings(payload, &callback)`: a buffered POST to the embeddings path; the
      override is ignored and a callback is always refused. */
  function Embeddings(client: Client, payload: Option<Payload>, override: Option<bool>, callback: bool,
                      parse: JsonParser, check: StatusCheck, delivery: Delivery): (o: Outcome)
    ensures callback ==>
      o.result == Failure(OwnError(BlockWithoutServerSentEvents(Some(BlockWithoutServerSentEventsMessage)))) && o.sent.None?
    ensures !callback ==>
      && o.sent.Some? && o.calls == []
      && o.sent.value.url == client.address + EmbeddingsPath
      && o.sent.value.verb == Post && o.sent.value.body == payload && !o.sent.value.streaming
    ensures !callback && delivery.fault.None? ==> o.result == Success(Buffered(SafeParseJson(parse, delivery.body)))
    ensures !callback && delivery.fault.Some? && delivery.fault.value.isServerError ==>
      o.result == Failure(OwnError(NewRequestError(Some(delivery.fault.value.message), delivery.fault, payload)))
    ensures !callback && delivery.fault.Some? && !delivery.fault.value.isServerError ==>
      o.result == Failure(ForeignError(delivery.fault.value))
  {
    Request(client, EmbeddingsPath, payload, Some(false), "POST", callback, parse, check, delivery)
  }

  /** `models(&callback)`: a buffered GET of the models path without a body; the
      override is ignored and a callback is always refused. */
  function Models(client: Client, override: Option<bool>, callback: bool,
                  parse: JsonParser, check: StatusCheck, delivery: Delivery): (o: Outcome)
    ensures callback ==>
      o.result == Failure(OwnError(BlockWithoutServerSentEvents(Some(BlockWithoutServerSentEventsMessage)))) && o.sent.None?
    ensures !callback ==>
      && o.sent.Some? && o.calls == []
      && o.sent.value.url == client.address + ModelsPath
      && o.sent.value.verb == Get && o.sent.value.body == None && !o.sent.value.streaming
    ensures !callback && delivery.fault.None? ==> o.result == Success(Buffered(SafeParseJson(parse, delivery.body)))
    ensures !callback && delivery.fault.Some? && delivery.fault.value.isServerError ==>
      o.result == Failure(OwnError(NewRequestError(Some(delivery.fault.value.message), delivery.fault, None)))
    ensures !callback && delivery.fault.Some? && !delivery.fault.value.isServerError ==>
      o.result == Failure(ForeignError(delivery.fault.value))
  {
    Request(client, ModelsPath, None, Some(false), "GET", callback, parse, check, delivery)
  }

  // ---------------------------------------------------------------------------
  // Properties across calls

  /** The guard neither depends on nor touches the client: the same client refuses a
      callback for a non-streaming call and then serves a streaming one. */
  lemma GuardLeavesDefaultAlone(client: Client, path: string, payload: Option<Payload>, requestMethod: string,
                                parse: JsonParser, check: StatusCheck, delivery: Delivery)
    ensures Request(client, path, payload, Some(false), requestMethod, true, parse, check, delivery).sent.None?
    ensures Request(client, path, payload, Some(true), requestMethod, true, parse, check, delivery).sent ==
      Some(BuildRequest(client, path, payload, requestMethod, true))
  {
  }

  /** Every streamed reply holds only decoded, non-sentinel data of delivered messages,
      and each callback invocation received the event at the same position. */
  lemma StreamedRepliesAreKeptEvents(client: Client, path: string, payload: Option<Payload>, override: Option<bool>,
                                     requestMethod: string, callback: bool,
                                     parse: JsonParser, check: StatusCheck, delivery: Delivery)
    requires Request(client, path, payload, override, requestMethod, callback, parse, check, delivery).result.Success?
    requires Request(client, path, payload, override, requestMethod, callback, parse, check, delivery).result.value.Streamed?
    ensures var o := Request(client, path, payload, override, requestMethod, callback, parse, check, delivery);
      && |o.result.value.events| <= |Messages(delivery.chunks)|
      && (forall i :: 0 <= i < |o.result.value.events| ==> !IsDone(o.result.value.events[i]))
      && (callback ==> forall i :: 0 <= i < |o.calls| ==> o.calls[i].event == o.result.value.events[i])
  {
    var o := Request(client, path, payload, override, requestMethod, callback, parse, check, delivery);
    var kept := Kept(parse, Messages(delivery.chunks));
    KeptExactly(parse, Messages(delivery.chunks));
    assert o.result.value.events == Events(kept);
    forall i | 0 <= i < |o.result.value.events|
      ensures !IsDone(o.result.value.events[i])
    {
      assert kept[i] in kept;
    }
  }
}

=== FILE: config.dfy ===
/** Construction of a client (`Client#initialize`): base address, API-key rule and
    the allow-list of transport options. */
module ClientConfig {
  import opened Wrappers
  import opened Values
  import opened Errors

  const DefaultAddress: string := "https://api.mistral.ai"

  /** The only `options.connection.request` keys passed on to the transport. */
  const AllowedRequestOptions: set<Key> :=
    {Symbol("timeout"), Symbol("open_timeout"), Symbol("read_timeout"), Symbol("write_timeout")}

  const MissingAPIKeyMessage: string := "Missing API Key, which is required."

  /** The value found at `options.connection.request`: a Hash, or anything else (nil included). */
  datatype RequestOptions = Hash(entries: map<Key, Json>) | NotHash

  /** The configuration hash given to the constructor. `serverSentEvents` stands for
      `options.server_sent_events`: only its truthiness matters, so `Some(true)` stands
      for every truthy value and `Some(false)` for `false`. */
  datatype Config = Config(
    apiKey: Option<string>,
    address: Option<string>,
    serverSentEvents: Option<bool>,
    requestOptions: RequestOptions)

  /** A constructed client; immutable for its whole lifetime. */
  datatype Client = Client(
    apiKey: Option<string>,
    serverSentEvents: Option<bool>,
    address: string,
    requestOptions: map<Key, Json>)

  /** The characters Ruby's `String#strip` removes. */
  predicate IsRubyWhitespace(c: char)
  {
    c == '\0' || c == '\t' || c == '\n' || c == '\U{B}' || c == '\U{C}' || c == '\r' || c == ' '
  }

  /** `s.strip.empty?` */
  predicate IsBlank(s: string)
  {
    forall i :: 0 <= i < |s| ==> IsRubyWhitespace(s[i])
  }

  predicate EndsWithSlash(s: string)
  {
    |s| > 0 && s[|s| - 1] == '/'
  }

  /** A `/` that the Ruby pattern `/$` matches: one at the end of the string or
      just before a line feed. */
  predicate SlashAtLineEnd(s: string, i: int)
  {
    0 <= i < |s| && s[i] == '/' && (i + 1 == |s| || s[i + 1] == '\n')
  }

  /** The leftmost match of `/$` at or after `from`. */
  function FirstSlashAtLineEnd(s: string, from: nat): (r: Option<nat>)
    requires from <= |s|
    ensures r.Some? ==> from <= r.value < |s| && SlashAtLineEnd(s, r.value)
    ensures r.Some? ==> forall j :: from <= j < r.value ==> !SlashAtLineEnd(s, j)
    ensures r.None? ==> forall j :: from <= j < |s| ==> !SlashAtLineEnd(s, j)
    decreases |s| - from
  {
    if from == |s| then None
    else if SlashAtLineEnd(s, from) then Some(from)
    else FirstSlashAtLineEnd(s, from + 1)
  }

  /** `s.sub(%r{/$}, '')`: removes the leftmost matching slash, if there is one. The
      text changes exactly when some slash matches, and then exactly that slash is
      gone. */
  function RemoveSlashAtLineEnd(s: string): (r: string)
    ensures r == s <==> FirstSlashAtLineEnd(s, 0).None?
    ensures |r| == |s| || |r| + 1 == |s|
    ensures FirstSlashAtLineEnd(s, 0).Some? ==>
      var i := FirstSlashAtLineEnd(s, 0).value;
      |r| + 1 == |s| && r[..i] == s[..i] && r[i..] == s[i + 1..]
  {
    match FirstSlashAtLineEnd(s, 0)
    case None => s
    case Some(i) => s[..i] + s[i + 1..]
  }

  /** On text without line feeds, `/$` can only match a final slash. */
  lemma RemoveSlashWithoutNewlines(s: string)
    ensures '\n' !in s ==> RemoveSlashAtLineEnd(s) == if EndsWithSlash(s) then s[..|s| - 1] else s
  {
    if '\n' in s { return; }
    match FirstSlashAtLineEnd(s, 0)
    case None =>
      if EndsWithSlash(s) {
        assert SlashAtLineEnd(s, |s| - 1);
      }
    case Some(i) =>
  }

  /** The base address a client uses: the default API root when the configured one
      is nil or blank, otherwise the configured text with one slash at a line end
      removed and exactly one slash appended. */
  function NormalizeAddress(address: Option<string>): (r: string)
    ensures EndsWithSlash(r)
    ensures address.None? || IsBlank(address.value) ==> r == DefaultAddress + "/"
    ensures address.Some? && !IsBlank(address.value) && '\n' !in address.value ==>
      r == if EndsWithSlash(address.value) then address.value else address.value + "/"
  {
    if address.None? || IsBlank(address.value) then DefaultAddress + "/"
    else
      var a := address.value;
      RemoveSlashWithoutNewlines(a);
      assert EndsWithSlash(a) ==> a[..|a| - 1] + "/" == a;
      RemoveSlashAtLineEnd(a) + "/"
  }

  /** Normalising an already normalised (line-feed free) address changes nothing. */
  lemma NormalizeIdempotent(address: Option<string>)
    requires address.Some? ==> '\n' !in address.value
    ensures NormalizeAddress(Some(NormalizeAddress(address))) == NormalizeAddress(address)
  {
    var r := NormalizeAddress(address);
    assert !IsRubyWhitespace(r[|r| - 1]);
    assert !IsBlank(r);
    assert '\n' !in r;
  }

  /** If removing one line-end slash from `a` leaves a text without line feeds and
      with no trailing slash, that slash was the final character. */
  lemma RemovedSlashWasFinal(a: string, d: string)
    requires RemoveSlashAtLineEnd(a) == d
    requires '\n' !in d && !EndsWithSlash(d)
    ensures a == d || a == d + "/"
  {
  }

  /** The `options.connection.request` entries the transport receives: the allow-listed
      keys of a Hash, and nothing for any other value. */
  function FilterRequestOptions(options: RequestOptions): (r: map<Key, Json>)
    ensures r.Keys <= AllowedRequestOptions
    ensures options.NotHash? ==> r == map[]
    ensures options.Hash? ==> r.Keys <= options.entries.Keys
    ensures options.Hash? ==> forall k :: k in options.entries && k in AllowedRequestOptions ==>
      k in r && r[k] == options.entries[k]
    ensures forall k :: k in r ==> options.Hash? && r[k] == options.entries[k]
  {
    match options
    case NotHash => map[]
    case Hash(entries) => map k | k in entries && k in AllowedRequestOptions :: entries[k]
  }

  /** Filtering what was already filtered changes nothing, and a Hash holding only
      allowed keys passes through whole. */
  lemma FilterRequestOptionsIdempotent(options: RequestOptions)
    ensures FilterRequestOptions(Hash(FilterRequestOptions(options))) == FilterRequestOptions(options)
    ensures options.Hash? && options.entries.Keys <= AllowedRequestOptions ==>
      FilterRequestOptions(options) == options.entries
  {
  }

  /** `Client.new(config)`: fails with `MissingAPIKeyError` exactly when no key is given
      and the normalised address is the public API root; otherwise the client keeps
      the key, the default streaming flag, the normalised address and the filtered
      transport options. */
  function New(config: Config): (r: Result<Client, Error>)
    ensures r.Failure? <==> config.apiKey.None? && NormalizeAddress(config.address) == DefaultAddress + "/"
    ensures r.Failure? ==> r.error == MissingAPIKey(Some(MissingAPIKeyMessage))
    ensures r.Success? ==>
      && r.value.apiKey == config.apiKey
      && r.value.serverSentEvents == config.serverSentEvents
      && r.value.address == NormalizeAddress(config.address)
      && r.value.requestOptions == FilterRequestOptions(config.requestOptions)
  {
    var address := NormalizeAddress(config.address);
    if config.apiKey.None? && address == DefaultAddress + "/" then
      Failure(NewError(MissingAPIKeyError, Some(MissingAPIKeyMessage)))
    else
      Success(Client(config.apiKey, config.serverSentEvents, address, FilterRequestOptions(config.requestOptions)))
  }

  /** The key rule stated on the raw configuration: without a key, construction fails
      exactly for a nil or blank address, `"https://api.mistral.ai"` and
      `"https://api.mistral.ai/"`; any other address needs no key. */
  lemma MissingKeyExactlyForDefaultAddress(config: Config)
    requires config.apiKey.None?
    ensures New(config).Failure? <==>
      || config.address.None?
      || IsBlank(config.address.value)
      || config.address.value == DefaultAddress
      || config.address.value == DefaultAddress + "/"
  {
    var d := DefaultAddress;
    if config.address.Some? && !IsBlank(config.address.value) {
      var a := config.address.value;
      if a == d || a == d + "/" {
        assert '\n' !in a;
        assert a == d ==> !EndsWithSlash(a);
      } else if NormalizeAddress(config.address) == d + "/" {
        var cut := RemoveSlashAtLineEnd(a);
        assert cut + "/" == d + "/";
        assert cut == (cut + "/")[..|cut|] == (d + "/")[..|d|] == d;
        RemovedSlashWasFinal(a, d);
        assert false;
      }
    }
  }

  /** With a key, every configuration yields a client. */
  lemma KeyAlwaysConstructs(config: Config)
    requires config.apiKey.Some?
    ensures New(config).Success?
  {
  }
}

=== FILE: decode.dfy ===
/** Best-effort JSON decoding (`Client#safe_parse_json`). */
module JsonDecode {
  import opened Wrappers
  import opened Values

  /** `JSON.parse`, left uninterpreted: the document a text denotes, or `None` where
      the parser raises `JSON::ParserError`. */
  type JsonParser = string -> Option<Json>

  /** The completion sentinel a stream may carry as the data of a message. */
  const DoneMarker: string := "[DONE]"

  /** `raw.start_with?('{', '[')` */
  predicate OpensStructure(raw: string)
  {
    |raw| > 0 && (raw[0] == '{' || raw[0] == '[')
  }

  /** `[DONE]` is not a JSON text: `DONE` is not a JSON value (section 3 of RFC 8259). */
  predicate RejectsDoneMarker(parse: JsonParser)
  {
    parse(DoneMarker).None?
  }

  /** `safe_parse_json(raw)`: the parsed document when `raw` opens an object or array
      and parses; the text itself, unchanged, in every other case. */
  function SafeParseJson(parse: JsonParser, raw: string): (r: Json)
    ensures r == JString(raw) || (OpensStructure(raw) && parse(raw) == Some(r))
    ensures !OpensStructure(raw) ==> r == JString(raw)
    ensures parse(raw).None? ==> r == JString(raw)
    ensures OpensStructure(raw) && parse(raw).Some? ==> r == parse(raw).value
  {
    if OpensStructure(raw) then
      match parse(raw)
      case Some(doc) => doc
      case None => JString(raw)
    else JString(raw)
  }

  /** Text that does not open an object or array never reaches the parser: any two
      parsers decode it alike. */
  lemma UnbracketedTextBypassesParser(p: JsonParser, q: JsonParser, raw: string)
    requires !OpensStructure(raw)
    ensures SafeParseJson(p, raw) == SafeParseJson(q, raw) == JString(raw)
  {
  }

  /** The sentinel decodes to itself, so the `on_data` handler can recognise it. */
  lemma DoneMarkerPassesThrough(parse: JsonParser)
    requires RejectsDoneMarker(parse)
    ensures SafeParseJson(parse, DoneMarker) == JString(DoneMarker)
  {
  }
}

=== FILE: errors.dfy ===
/** The exception classes of components/errors.rb and their values. */
module Errors {
  import opened Wrappers
  import opened Values
  import opened Transport

  /** The Ruby classes involved, `StandardError` being the root of the chain. */
  datatype ErrorClass =
    | StandardError
    | MistralError
    | MissingAPIKeyError
    | BlockWithoutServerSentEventsError
    | RequestError

  /** Distance from `StandardError` in the inheritance chain; it exists so that the
      walk up the chain in `IsA` visibly terminates. */
  function Depth(c: ErrorClass): nat
  {
    match c
    case StandardError => 0
    case MistralError => 1
    case _ => 2
  }

  /** The class each class directly inherits from. The modelled chain stops at
      `StandardError`, and every other class sits exactly one level below its
      superclass. */
  function Superclass(c: ErrorClass): (r: Option<ErrorClass>)
    ensures r.None? <==> c == StandardError
    ensures r.Some? ==> Depth(r.value) + 1 == Depth(c)
    ensures r.Some? && c != MistralError ==> r.value == MistralError
  {
    match c
    case StandardError => None
    case MistralError => Some(StandardError)
    case MissingAPIKeyError => Some(MistralError)
    case BlockWithoutServerSentEventsError => Some(MistralError)
    case RequestError => Some(MistralError)
  }

  /** Ruby's `is_a?`: `c` is `ancestor` or inherits from it. Walking the chain gives the
      flat description: every class is a `StandardError`, every class but
      `StandardError` is a `MistralError`, and the three leaf classes are only
      themselves otherwise. */
  predicate IsA(c: ErrorClass, ancestor: ErrorClass)
    decreases Depth(c)
    ensures IsA(c, ancestor) <==>
      || c == ancestor
      || ancestor == StandardError
      || (ancestor == MistralError && c != StandardError)
    ensures IsA(c, ancestor) ==> Depth(ancestor) <= Depth(c)
  {
    c == ancestor || (Superclass(c).Some? && IsA(Superclass(c).value, ancestor))
  }

  /** An exception value of one of the classes above. Every class keeps the message
      it was given; a `RequestError` also exposes `request` and `payload`. */
  datatype Error =
    | Mistral(message: Option<string>)
    | MissingAPIKey(message: Option<string>)
    | BlockWithoutServerSentEvents(message: Option<string>)
    | Request(message: Option<string>, request: Option<Fault>, payload: Option<Payload>)
  {
    function Class(): ErrorClass
    {
      match this
      case Mistral(_) => MistralError
      case MissingAPIKey(_) => MissingAPIKeyError
      case BlockWithoutServerSentEvents(_) => BlockWithoutServerSentEventsError
      case Request(_, _, _) => RequestError
    }
  }

  /** `c.new(message)` for a class below `MistralError`: the message (nil by default)
      is handed unchanged to `StandardError`, and a `RequestError` built this way has
      neither request nor payload. */
  function NewError(c: ErrorClass, message: Option<string> := None): (e: Error)
    requires IsA(c, MistralError)
    ensures e.Class() == c
    ensures e.message == message
    ensures e.Request? ==> e.request == None && e.payload == None
  {
    match c
    case MistralError => Mistral(message)
    case MissingAPIKeyError => MissingAPIKey(message)
    case BlockWithoutServerSentEventsError => BlockWithoutServerSentEvents(message)
    case RequestError => Request(message, None, None)
  }

  /** `RequestError.new(message, request:, payload:)`: all three arguments default to
      nil and are stored unchanged. */
  function NewRequestError(message: Option<string> := None, request: Option<Fault> := None,
                           payload: Option<Payload> := None): (e: Error)
    ensures e.Request? && e.Class() == RequestError
    ensures e.message == message && e.request == request && e.payload == payload
  {
    Request(message, request, payload)
  }

  /** Every error the client raises is a `MistralError`, hence a `StandardError`. */
  lemma ErrorsAreMistralErrors(e: Error)
    ensures IsA(e.Class(), MistralError)
    ensures IsA(e.Class(), StandardError)
  {
  }

  /** `StandardError` is not itself a `MistralError`: the inheritance is strict. */
  lemma MistralErrorIsStrictlyBelowStandardError()
    ensures IsA(MistralError, StandardError)
    ensures !IsA(StandardError, MistralError)
  {
  }
}

=== FILE: scenarios.dfy ===
/** Concrete runs of the model: the key check exercised by spec/tasks/run-client.rb
    and small examples of buffered and streamed replies. */
module Scenarios {
  import opened Wrappers
  import opened Values
  import opened Transport
  import opened Errors
  import opened ClientConfig
  import opened JsonDecode
  import opened Streaming
  import opened ClientRequest

  /** A parser that knows the handful of documents used below. The streamed event
      carries a `choices` list, as every event the chat endpoint streams does, so the
      finish-reason scan the source runs after each append finds nothing to raise on. */
  function ExampleParser(): JsonParser
  {
    (s: string) =>
      if s == "{\"a\":1}" then Some(JObject([("a", JNumber("1"))]))
      else if s == "{\"choices\":[]}" then Some(JObject([("choices", JArray([]))]))
      else if s == "[{\"id\":\"m1\"}]" then Some(JArray([JObject([("id", JString("m1"))])]))
      else None
  }

  /** A status check that raises a server error for 5xx statuses, the only failing
      status used below. */
  function ExampleCheck(): StatusCheck
  {
    (env: Env, body: string) =>
      if 500 <= env.status < 600 then Some(Fault(true, "the server responded with status 500")) else None
  }

  const Ok: Option<Env> := Some(Env(200))

  /** No key and no address fails, as spec/tasks/run-client.rb expects. */
  lemma NoKeyNoAddressFails()
    ensures New(Config(None, None, Some(true), NotHash)) == Failure(MissingAPIKey(Some(MissingAPIKeyMessage)))
  {
  }

  /** No key with a custom address succeeds, the address gaining its trailing slash. */
  lemma NoKeyCustomAddressSucceeds()
    ensures New(Config(None, Some("http://localhost:8080"), None, NotHash)).Success?
    ensures New(Config(None, Some("http://localhost:8080"), None, NotHash)).value.address == "http://localhost:8080/"
  {
    var a := "http://localhost:8080";
    assert !IsRubyWhitespace(a[0]);
    assert '\n' !in a;
    assert !EndsWithSlash(a);
    assert a != DefaultAddress by {
      assert |a| != |DefaultAddress|;
    }
    MissingKeyExactlyForDefaultAddress(Config(None, Some(a), None, NotHash));
  }

  /** A buffered body that parses is returned decoded; one that does not is returned as is. */
  lemma BufferedExamples(client: Client)
    ensures Models(client, None, false, ExampleParser(), ExampleCheck(), Delivery([], "{\"a\":1}", None)).result ==
      Success(Buffered(JObject([("a", JNumber("1"))])))
    ensures Models(client, None, false, ExampleParser(), ExampleCheck(), Delivery([], "not-json", None)).result ==
      Success(Buffered(JString("not-json")))
  {
  }

  /** `models()` on a client with key `k` against the body `[{"id":"m1"}]`. */
  lemma ModelsEndToEnd()
    ensures New(Config(Some("k"), None, None, NotHash)).Success?
    ensures var client := New(Config(Some("k"), None, None, NotHash)).value;
      var o := Models(client, None, false, ExampleParser(), ExampleCheck(), Delivery([], "[{\"id\":\"m1\"}]", None));
      && o.sent.value.url == "https://api.mistral.ai/v1/models"
      && o.sent.value.headers["Authorization"] == "Bearer k"
      && o.result == Success(Buffered(JArray([JObject([("id", JString("m1"))])])))
  {
  }

  /** Streaming `{"choices":[]}` then `[DONE]` keeps one event. */
  lemma StreamExampleKeeps()
    ensures var raw := RawChunk("data: {\"choices\":[]}\n\ndata: [DONE]\n\n", 36, Ok);
      var tuples := [SseTuple(None, "{\"choices\":[]}", None, None), SseTuple(None, "[DONE]", None, None)];
      Kept(ExampleParser(), Messages([Chunk(raw, tuples)])) == [StreamEvent(JObject([("choices", JArray([]))]), tuples[0], raw)]
  {
    var raw := RawChunk("data: {\"choices\":[]}\n\ndata: [DONE]\n\n", 36, Ok);
    var tuples := [SseTuple(None, "{\"choices\":[]}", None, None), SseTuple(None, "[DONE]", None, None)];
    var parse := ExampleParser();
    assert Messages([Chunk(raw, tuples)]) == Pair(raw, tuples) + Messages([]);
    var ms := Pair(raw, tuples);
    assert ms == [Message(tuples[0], raw), Message(tuples[1], raw)];
    assert SafeParseJson(parse, "{\"choices\":[]}") == JObject([("choices", JArray([]))]);
    assert parse("[DONE]") == None by {
      assert "[DONE]" != "{\"a\":1}" && "[DONE]" != "{\"choices\":[]}" by {
        assert "[DONE]"[0] != '{';
      }
      assert "[DONE]" != "[{\"id\":\"m1\"}]" by {
        assert "[DONE]"[1] != "[{\"id\":\"m1\"}]"[1];
      }
    }
    assert IsDone(SafeParseJson(parse, "[DONE]"));
    assert ms[1..] == [Message(tuples[1], raw)];
    assert ms[1..][1..] == [];
    assert Kept(parse, ms[1..]) == [] + Kept(parse, ms[1..][1..]) == [];
    assert Kept(parse, ms) == [StreamEvent(JObject([("choices", JArray([]))]), tuples[0], raw)] + Kept(parse, ms[1..]);
  }

  /** The same stream through `chat_completions` with a callback: one event returned,
      one invocation made. */
  lemma StreamExample(client: Client)
    ensures var raw := RawChunk("data: {\"choices\":[]}\n\ndata: [DONE]\n\n", 36, Ok);
      var tuples := [SseTuple(None, "{\"choices\":[]}", None, None), SseTuple(None, "[DONE]", None, None)];
      var payload := map[Symbol("stream") := JBool(true)];
      var o := ChatCompletions(client, payload, Some(true), true, ExampleParser(), ExampleCheck(),
                               Delivery([Chunk(raw, tuples)], "", None));
      && o.result == Success(Streamed([JObject([("choices", JArray([]))])]))
      && o.calls == [StreamEvent(JObject([("choices", JArray([]))]), tuples[0], raw)]
  {
    StreamExampleKeeps();
    var raw := RawChunk("data: {\"choices\":[]}\n\ndata: [DONE]\n\n", 36, Ok);
    var tuples := [SseTuple(None, "{\"choices\":[]}", None, None), SseTuple(None, "[DONE]", None, None)];
    var payload := map[Symbol("stream") := JBool(true)];
    var chunks := [Chunk(raw, tuples)];
    assert StreamRequested(payload);
    assert FirstAbort(ExampleCheck(), chunks) == None by {
      assert ChunkFault(ExampleCheck(), chunks[0]) == None;
      assert chunks[1..] == [];
    }
    assert AbortFault(ExampleCheck(), chunks) == None;
    var o := ChatCompletions(client, payload, Some(true), true, ExampleParser(), ExampleCheck(), Delivery(chunks, "", None));
    assert o.sent.Some? && o.sent.value.streaming;
    assert Events([StreamEvent(JObject([("choices", JArray([]))]), tuples[0], raw)]) == [JObject([("choices", JArray([]))])];
  }

  /** A streamed response with status 500: every chunk carries the same environment,
      so Faraday's status check raises on the first one. The exchange ends with a
      `RequestError` carrying the payload; no event reaches the callback and no list is
      returned. */
  lemma FailingStreamRaises(client: Client)
    ensures var failed := Some(Env(500));
      var first := Chunk(RawChunk("data: {\"choices\":[]}\n\n", 22, failed), [SseTuple(None, "{\"choices\":[]}", None, None)]);
      var second := Chunk(RawChunk("data: [DONE]\n\n", 36, failed), [SseTuple(None, "[DONE]", None, None)]);
      var payload := map[Symbol("stream") := JBool(true)];
      var o := ChatCompletions(client, payload, Some(true), true, ExampleParser(), ExampleCheck(),
                               Delivery([first, second], "", None));
      && o.result == Failure(OwnError(NewRequestError(Some("the server responded with status 500"),
                                                      Some(Fault(true, "the server responded with status 500")),
                                                      Some(payload))))
      && o.calls == []
  {
    var failed := Some(Env(500));
    var first := Chunk(RawChunk("data: {\"choices\":[]}\n\n", 22, failed), [SseTuple(None, "{\"choices\":[]}", None, None)]);
    var second := Chunk(RawChunk("data: [DONE]\n\n", 36, failed), [SseTuple(None, "[DONE]", None, None)]);
    assert FirstAbort(ExampleCheck(), [first, second]) == Some(0);
  }

  /** A chat payload without `stream: true` refuses a callback even when the client
      streams by default and the caller asks for streaming. */
  lemma ChatWithoutStreamRefusesCallback(parse: JsonParser, check: StatusCheck, delivery: Delivery)
    ensures var client := ClientConfig.Client(Some("k"), Some(true), "https://api.mistral.ai/", map[]);
      ChatCompletions(client, map[Symbol("stream") := JBool(false)], Some(true), true, parse, check, delivery).result ==
        Failure(OwnError(BlockWithoutServerSentEvents(Some(BlockWithoutServerSentEventsMessage))))
  {
  }
}

=== FILE: streaming.dfy ===
/** The streaming path of `Client#request`: the `on_data` handler folded over the
    chunks the transport delivers, against a reference definition of its result. */
module Streaming {
  import opened Wrappers
  import opened Values
  import opened Transport
  import opened JsonDecode

  /** The hash built for each kept message: `{event:, parsed:, raw:}`. */
  datatype StreamEvent = StreamEvent(event: Json, parsed: SseTuple, raw: RawChunk)

  /** A tokenizer message paired with the chunk whose feeding yielded it. */
  datatype Message = Message(parsed: SseTuple, raw: RawChunk)

  /** The handler's state: `results` as accumulated, the callback invocations made so
      far (each with the event it was given), and the exception that stopped the
      exchange, if any. */
  datatype Stream = Stream(results: seq<StreamEvent>, calls: seq<StreamEvent>, aborted: Option<Fault>)

  const Start: Stream := Stream([], [], None)

  predicate IsDone(j: Json)
  {
    j == JString(DoneMarker)
  }

  // ---------------------------------------------------------------------------
  // Reference definition

  /** All messages, in delivery order, each paired with its chunk. */
  function Messages(chunks: seq<Chunk>): (ms: seq<Message>)
  {
    if |chunks| == 0 then []
    else Pair(chunks[0].raw, chunks[0].tuples) + Messages(chunks[1..])
  }

  function Pair(raw: RawChunk, tuples: seq<SseTuple>): (ms: seq<Message>)
    ensures |ms| == |tuples|
    ensures forall i :: 0 <= i < |ms| ==> ms[i] == Message(tuples[i], raw)
  {
    if |tuples| == 0 then [] else [Message(tuples[0], raw)] + Pair(raw, tuples[1..])
  }

  /** The events the `on_data` handler should keep: every message whose decoded data is not
      the sentinel, decoded, in order. */
  function Kept(parse: JsonParser, ms: seq<Message>): seq<StreamEvent>
  {
    if |ms| == 0 then []
    else
      var d := SafeParseJson(parse, ms[0].parsed.data);
      (if IsDone(d) then [] else [StreamEvent(d, ms[0].parsed, ms[0].raw)]) + Kept(parse, ms[1..])
  }

  /** The exception the status check raises for a chunk, if any: only a chunk with an
      environment whose status is not 200 is checked. */
  function ChunkFault(check: StatusCheck, c: Chunk): Option<Fault>
  {
    if c.raw.env.Some? && c.raw.env.value.status != 200 then check(c.raw.env.value, c.raw.chunk) else None
  }

  /** Index of the first chunk whose status check raises. */
  function FirstAbort(check: StatusCheck, chunks: seq<Chunk>): (r: Option<nat>)
    ensures r.Some? ==> r.value < |chunks| && ChunkFault(check, chunks[r.value]).Some?
    ensures r.Some? ==> forall j :: 0 <= j < r.value ==> ChunkFault(check, chunks[j]).None?
    ensures r.None? ==> forall j :: 0 <= j < |chunks| ==> ChunkFault(check, chunks[j]).None?
  {
    if |chunks| == 0 then None
    else if ChunkFault(check, chunks[0]).Some? then Some(0)
    else match FirstAbort(check, chunks[1..])
      case None => None
      case Some(k) => Some(k + 1)
  }

  /** The chunks the handler processes in full: those before the first aborting one. */
  function Processed(check: StatusCheck, chunks: seq<Chunk>): seq<Chunk>
  {
    match FirstAbort(check, chunks)
    case None => chunks
    case Some(k) => chunks[..k]
  }

  function Events(es: seq<StreamEvent>): (r: seq<Json>)
    ensures |r| == |es|
    ensures forall i :: 0 <= i < |es| ==> r[i] == es[i].event
  {
    if |es| == 0 then [] else [es[0].event] + Events(es[1..])
  }

  // ---------------------------------------------------------------------------
  // The handler, as the source runs it

  /** Appends events to the results, handing each to the callback first when there is one. */
  function Extend(st: Stream, callback: bool, es: seq<StreamEvent>): Stream
  {
    Stream(st.results + es, if callback then st.calls + es else st.calls, st.aborted)
  }

  /** The body of `parser.feed(chunk) do |type, data, id, reconnection_time|`, over the
      messages one chunk yields: a decoded sentinel is skipped; any other message is
      handed to the callback (when there is one) and then appended. */
  function FeedTuples(parse: JsonParser, callback: bool, raw: RawChunk, tuples: seq<SseTuple>, st: Stream): (r: Stream)
    decreases |tuples|
    ensures r.aborted == st.aborted
    ensures st.results <= r.results && |r.results| <= |st.results| + |tuples|
    ensures callback ==> st.calls <= r.calls && r.calls[|st.calls|..] == r.results[|st.results|..]
    ensures !callback ==> r.calls == st.calls
    ensures forall i :: |st.results| <= i < |r.results| ==> !IsDone(r.results[i].event) && r.results[i].raw == raw
  {
    if |tuples| == 0 then st
    else
      var parsedData := SafeParseJson(parse, tuples[0].data);
      if !IsDone(parsedData) then
        var result := StreamEvent(parsedData, tuples[0], raw);
        FeedTuples(parse, callback, raw, tuples[1..], Extend(st, callback, [result]))
      else FeedTuples(parse, callback, raw, tuples[1..], st)
  }

  /** The `on_data` handler for one chunk: a chunk whose environment reports a status
      other than 200 goes through Faraday's status check, which may raise and end
      the exchange; otherwise the chunk is fed to the tokenizer. */
  function OnData(parse: JsonParser, check: StatusCheck, callback: bool, st: Stream, c: Chunk): (r: Stream)
    ensures ChunkFault(check, c).Some? ==> r == st.(aborted := ChunkFault(check, c))
    ensures ChunkFault(check, c).None? ==> r.aborted == st.aborted
    ensures st.results <= r.results && st.calls <= r.calls
    ensures !callback ==> r.calls == st.calls
  {
    match ChunkFault(check, c)
    case Some(f) => Stream(st.results, st.calls, Some(f))
    case None => FeedTuples(parse, callback, c.raw, c.tuples, st)
  }

  /** The transport delivering chunk after chunk until one raises. */
  function Drive(parse: JsonParser, check: StatusCheck, callback: bool, st: Stream, chunks: seq<Chunk>): (r: Stream)
    decreases |chunks|
    ensures st.aborted.Some? ==> r == st
    ensures st.results <= r.results && st.calls <= r.calls
    ensures !callback ==> r.calls == st.calls
    ensures r.aborted.Some? && st.aborted.None? ==> exists j :: 0 <= j < |chunks| && r.aborted == ChunkFault(check, chunks[j])
  {
    if st.aborted.Some? || |chunks| == 0 then st
    else Drive(parse, check, callback, OnData(parse, check, callback, st, chunks[0]), chunks[1..])
  }

  // ---------------------------------------------------------------------------
  // The handler agrees with the reference definition

  lemma {:induction false} KeptAppend(parse: JsonParser, a: seq<Message>, b: seq<Message>)
    ensures Kept(parse, a + b) == Kept(parse, a) + Kept(parse, b)
  {
    if |a| == 0 {
      assert a + b == b;
    } else {
      assert (a + b)[1..] == a[1..] + b;
      KeptAppend(parse, a[1..], b);
    }
  }

  lemma ExtendTwice(st: Stream, callback: bool, a: seq<StreamEvent>, b: seq<StreamEvent>)
    ensures Extend(Extend(st, callback, a), callback, b) == Extend(st, callback, a + b)
  {
  }

  lemma ExtendNothing(st: Stream, callback: bool)
    ensures Extend(st, callback, []) == st
  {
  }

  /** Feeding one chunk's messages appends exactly their kept events, and the same
      events to the calls when there is a callback. */
  lemma {:induction false} FeedTuplesKeeps(parse: JsonParser, callback: bool, raw: RawChunk, tuples: seq<SseTuple>, st: Stream)
    ensures FeedTuples(parse, callback, raw, tuples, st) == Extend(st, callback, Kept(parse, Pair(raw, tuples)))
  {
    if |tuples| == 0 {
      ExtendNothing(st, callback);
    } else {
      var ms := Pair(raw, tuples);
      assert ms[1..] == Pair(raw, tuples[1..]);
      var d := SafeParseJson(parse, tuples[0].data);
      if !IsDone(d) {
        var e := StreamEvent(d, tuples[0], raw);
        FeedTuplesKeeps(parse, callback, raw, tuples[1..], Extend(st, callback, [e]));
        ExtendTwice(st, callback, [e], Kept(parse, ms[1..]));
        assert Kept(parse, ms) == [e] + Kept(parse, ms[1..]);
      } else {
        FeedTuplesKeeps(parse, callback, raw, tuples[1..], st);
        assert Kept(parse, ms) == Kept(parse, ms[1..]);
      }
    }
  }

  /** One delivery to the `on_data` handler: a chunk that passes the status check
      appends exactly its kept events, to the calls as well when there is a callback,
      and leaves the abort state alone. */
  lemma OnDataAppendsKeptEvents(parse: JsonParser, check: StatusCheck, callback: bool, st: Stream, c: Chunk)
    requires ChunkFault(check, c).None?
    ensures OnData(parse, check, callback, st, c) == Extend(st, callback, Kept(parse, Pair(c.raw, c.tuples)))
  {
    FeedTuplesKeeps(parse, callback, c.raw, c.tuples, st);
  }

  /** The exception that ends the exchange early, if any chunk's status check raises. */
  function AbortFault(check: StatusCheck, chunks: seq<Chunk>): Option<Fault>
  {
    match FirstAbort(check, chunks)
    case None => None
    case Some(k) => ChunkFault(check, chunks[k])
  }

  /** A chunk that passes its status check is processed in full, ahead of the rest. */
  lemma PassingChunkIsProcessed(check: StatusCheck, chunks: seq<Chunk>)
    requires |chunks| > 0 && ChunkFault(check, chunks[0]).None?
    ensures Processed(check, chunks) == [chunks[0]] + Processed(check, chunks[1..])
    ensures AbortFault(check, chunks) == AbortFault(check, chunks[1..])
  {
  }

  lemma MessagesCons(c: Chunk, rest: seq<Chunk>)
    ensures Messages([c] + rest) == Pair(c.raw, c.tuples) + Messages(rest)
  {
  }

  /** One step of the transport: a chunk that passes its check is fed in full. */
  lemma DrivePassingChunk(parse: JsonParser, check: StatusCheck, callback: bool, st: Stream, chunks: seq<Chunk>)
    requires st.aborted.None? && |chunks| > 0 && ChunkFault(check, chunks[0]).None?
    ensures Drive(parse, check, callback, st, chunks) ==
      Drive(parse, check, callback, FeedTuples(parse, callback, chunks[0].raw, chunks[0].tuples, st), chunks[1..])
  {
  }

  /** The general form of `DriveMatchesReference`, from any unaborted state. */
  lemma {:induction false} DriveFrom(parse: JsonParser, check: StatusCheck, callback: bool, st: Stream, chunks: seq<Chunk>)
    requires st.aborted.None?
    decreases |chunks|
    ensures Drive(parse, check, callback, st, chunks) ==
      Extend(st, callback, Kept(parse, Messages(Processed(check, chunks)))).(aborted := AbortFault(check, chunks))
  {
    if |chunks| == 0 {
      ExtendNothing(st, callback);
    } else if ChunkFault(check, chunks[0]).Some? {
      assert FirstAbort(check, chunks) == Some(0);
      assert Messages(Processed(check, chunks)) == [];
      ExtendNothing(st, callback);
    } else {
      var c := chunks[0];
      var kept0 := Kept(parse, Pair(c.raw, c.tuples));
      var rest := Processed(check, chunks[1..]);
      FeedTuplesKeeps(parse, callback, c.raw, c.tuples, st);
      DrivePassingChunk(parse, check, callback, st, chunks);
      DriveFrom(parse, check, callback, Extend(st, callback, kept0), chunks[1..]);
      ExtendTwice(st, callback, kept0, Kept(parse, Messages(rest)));
      PassingChunkIsProcessed(check, chunks);
      MessagesCons(c, rest);
      KeptAppend(parse, Pair(c.raw, c.tuples), Messages(rest));
    }
  }

  /** The handler folded over the delivered chunks yields, in delivery order, exactly
      the kept events of the chunks before the first one whose status check raises;
      the callback saw the same events in the same order (and nothing without one);
      the exchange is aborted exactly when some chunk's check raises, with that
      chunk's exception. */
  lemma DriveMatchesReference(parse: JsonParser, check: StatusCheck, callback: bool, chunks: seq<Chunk>)
    ensures Drive(parse, check, callback, Start, chunks).results == Kept(parse, Messages(Processed(check, chunks)))
    ensures Drive(parse, check, callback, Start, chunks).calls ==
      if callback then Kept(parse, Messages(Processed(check, chunks))) else []
    ensures Drive(parse, check, callback, Start, chunks).aborted.Some? <==> FirstAbort(check, chunks).Some?
    ensures Drive(parse, check, callback, Start, chunks).aborted == AbortFault(check, chunks)
  {
    var kept := Kept(parse, Messages(Processed(check, chunks)));
    DriveFrom(parse, check, callback, Start, chunks);
    assert [] + kept == kept;
    assert Drive(parse, check, callback, Start, chunks) == Stream(kept, if callback then kept else [], AbortFault(check, chunks));
  }

  // ---------------------------------------------------------------------------
  // Properties of the kept events

  /** A message is kept exactly when its decoded data is not the sentinel, and a kept
      event carries the decoding of its message's data. */
  lemma {:induction false} KeptExactly(parse: JsonParser, ms: seq<Message>)
    ensures forall e :: e in Kept(parse, ms) ==>
      Message(e.parsed, e.raw) in ms && e.event == SafeParseJson(parse, e.parsed.data) && !IsDone(e.event)
    ensures forall m :: m in ms && !IsDone(SafeParseJson(parse, m.parsed.data)) ==>
      StreamEvent(SafeParseJson(parse, m.parsed.data), m.parsed, m.raw) in Kept(parse, ms)
    ensures |Kept(parse, ms)| <= |ms|
  {
    if |ms| > 0 {
      KeptExactly(parse, ms[1..]);
      assert ms == [ms[0]] + ms[1..];
    }
  }

  /** A sentinel message contributes nothing and leaves the others untouched. */
  lemma SentinelContributesNothing(parse: JsonParser, before: seq<Message>, done: Message, after: seq<Message>)
    requires IsDone(SafeParseJson(parse, done.parsed.data))
    ensures Kept(parse, before + [done] + after) == Kept(parse, before) + Kept(parse, after)
  {
    KeptAppend(parse, before + [done], after);
    KeptAppend(parse, before, [done]);
    assert Kept(parse, [done]) == [] by {
      assert [done][1..] == [];
    }
  }

  /** A message whose data is the sentinel text is dropped whatever the parser, as long
      as the parser rejects that text. */
  lemma DoneMessagesAreDropped(parse: JsonParser, m: Message)
    requires RejectsDoneMarker(parse)
    requires m.parsed.data == DoneMarker
    ensures Kept(parse, [m]) == []
  {
  }
}

=== FILE: transport.dfy ===
/** What the HTTP transport (Faraday) and the event-stream tokenizer hand to the client.
    Their internals are not part of this model; only the values they deliver are. */
module Transport {
  import opened Wrappers
  import opened Values

  /** An exception raised by Faraday. `isServerError` says whether its class is
      `Faraday::ServerError` or a subclass of it, the only family the client rescues. */
  datatype Fault = Fault(isServerError: bool, message: string)

  /** The response environment Faraday passes along with a streamed chunk. Faraday
      passes the same environment with every chunk of one response; the model lets
      each chunk carry its own, which only makes the statements about streaming more
      general. */
  datatype Env = Env(status: int)

  /** The `raw` part of a streamed event: the chunk, the byte count Faraday reports
      with it, and the environment (absent when Faraday passes `nil`). */
  datatype RawChunk = RawChunk(chunk: string, bytes: nat, env: Option<Env>)

  /** One message yielded by the event-stream tokenizer: `(type, data, id, reconnection_time)`. */
  datatype SseTuple = SseTuple(eventType: Option<string>, data: string, id: Option<string>, reconnectionTime: Option<int>)

  /** A chunk received in streaming mode, together with the messages the tokenizer
      yields when that chunk is fed to it (reassembly across chunks is the tokenizer's). */
  datatype Chunk = Chunk(raw: RawChunk, tuples: seq<SseTuple>)

  /** Faraday's `RaiseError#on_complete` applied to a chunk's environment and body:
      the exception it raises for that status, if any. */
  type StatusCheck = (Env, string) -> Option<Fault>

  /** How the transport answers one request: in streaming mode the chunks it passes
      to `on_data`, in buffered mode the response body, and the exception (if any)
      the transport raises once those have been delivered. */
  datatype Delivery = Delivery(chunks: seq<Chunk>, body: string, fault: Option<Fault>)
}

=== FILE: values.dfy ===
/** The Ruby values the client handles: JSON documents, hash keys and request payloads. */
module Values {

  /** A decoded JSON value. A plain Ruby String is the same value as a JSON string,
      so text that is not decoded is represented as `JString`. Numbers keep their
      lexeme: the client never does arithmetic on them. */
  datatype Json =
    | JNull
    | JBool(b: bool)
    | JNumber(lexeme: string)
    | JString(s: string)
    | JArray(items: seq<Json>)
    | JObject(members: seq<(string, Json)>)

  /** A Ruby hash key: a Symbol such as `:timeout` is distinct from the String `"timeout"`. */
  datatype Key = Symbol(name: string) | Text(name: string)

  /** A request payload: a Ruby Hash, serialised with `to_json` when it is sent. */
  type Payload = map<Key, Json>
}

=== FILE: wrappers.dfy ===
/** Optional values and success/failure results shared by every module of the model. */
module Wrappers {

  /** Ruby's `nil` or a present value. */
  datatype Option<+T> = None | Some(value: T)

  /** The value an operation returns, or the exception it raises. */
  datatype Result<+R, +E> = Success(value: R) | Failure(error: E)
}
